=== FILE: README.md ===
# SmartBuy catalog, order and edit rules in Dafny

SmartBuy is a console point-of-sale program. It keeps a catalog of
`NUM_ITEMS` = 5 products in three parallel global lists: `food_names`,
`prices` and `in_stock`. It loads the catalog from `products.txt` at start-up
and takes customer orders against it, taking the ordered quantities out of
stock. An admin panel overwrites a product's price and stock. The catalog is
saved back to the same file after a completed order and after every admin
edit.

This project models that core:

- `Wrappers` — `Option` and `Result`. `None` stands for console text that
  Python's `int()` rejects, or `float()` for the new price of an edit.
- `CatalogFormat` — the text of the catalog file as pure functions:
  - `readline()`, `strip()`, `split(',')` and `str()`;
  - `int()` on a field;
  - `float()` on a price field, with prices held as whole cents;
  - `f"{price:.2f}"`;
  - the per-line parse of `load_products` with its error cases (missing
    file, too few lines, a line without exactly three fields, a number that
    does not parse);
  - the text `save_products` writes;
  - the save/load round trip.
- `OrderRules` — the checks made on one order line, in the source's order:
  item number, then quantity of at least one, then stock. Also:
  - the order session as a fold of those checks over the entries;
  - the running total and stock conservation;
  - the empty order;
  - the rows and total of the bill.
- `AdminRules` — the checks of `edit_product`, in their order, and the
  catalog after an edit.
- `SmartBuy` — class `Catalog` holding the three lists as arrays that its
  methods update in place:
  - `Load` (the `load_products` loop);
  - `Save`;
  - `TakeOrder` (the order loop of `main`);
  - `PlaceOrder` (finish or discard an order);
  - `EditProduct`;
  - `AdminEdit` (an edit followed by the save the admin menu always makes).

  Each method is stated against the functions of the other modules.

Console input is a parameter. An order is the sequence of `(item,
quantity)` entries typed before Enter is pressed on an empty item prompt. An
edit is the three answers. The file is a parameter `Option<string>`, with
`None` for a missing file. What is written is a result.

Two behaviours of the code are worth knowing before reading the contracts:

- `load_products` does not check signs, so `Load` accepts negative prices
  and stocks from the file. Only orders (for stock) and edits keep values
  non-negative (`OrderRules.RunStock`, `AdminRules.EditKeepsNamesAndSigns`).
- The admin menu calls `save_products` after `edit_product` even when the
  edit was rejected (Smartbuy.py:83-84), so `SmartBuy.Catalog.AdminEdit`
  saves in both cases.

## Model

| member | source | states |
|---|---|---|
| CatalogFormat.NatTextRoundTrip | Smartbuy.py:48 | `str(n)` of a natural number is a non-empty string of decimal digits whose value is `n` |
| CatalogFormat.Strip | Smartbuy.py:33 | `strip()` never lengthens the text, and its result neither starts nor ends with whitespace; `StripExactly` pins it down |
| CatalogFormat.StripOf | Smartbuy.py:33 | `strip()` of a text with whitespace around it is that text, when it neither starts nor ends with whitespace |
| CatalogFormat.StripExactly | Smartbuy.py:33 | `strip()` keeps one contiguous part of the text, everything it removes on either side is whitespace, and what it keeps neither starts nor ends with whitespace |
| CatalogFormat.StripDropsNewline | Smartbuy.py:29-33 | stripping a line read by `readline()` removes its newline and leaves no leading whitespace |
| CatalogFormat.Split | Smartbuy.py:33 | `split(',')` always yields at least one piece |
| CatalogFormat.SplitPiecesFree | Smartbuy.py:33 | no piece of a split holds the separator |
| CatalogFormat.SplitJoin | Smartbuy.py:33 | splitting text joined with a separator gives back the pieces, when no piece holds the separator |
| CatalogFormat.JoinSplit | Smartbuy.py:33 | joining the pieces of a split gives back the text |
| CatalogFormat.SplitCount | Smartbuy.py:33 | `split(',')` gives one piece more than the text has commas |
| CatalogFormat.ReadLine | Smartbuy.py:29 | `readline()` splits the unread text into the line and what follows it, losing nothing; `ReadLineSplits` and `ReadLineOf` say where it splits |
| CatalogFormat.ReadLineSplits | Smartbuy.py:29-30 | `readline()` loses no text and returns an empty line only at the end of the file; the line has no newline before its last character, and it ends with a newline unless it runs to the end of the text |
| CatalogFormat.ReadLineOf | Smartbuy.py:29 | reading a written line returns exactly that line and the text after it |
| CatalogFormat.FractionCentsValue | Smartbuy.py:39 | up to two decimals are worth the cents they spell once padded with zeros to two digits (`.5` is 50 cents, no decimals 0) |
| CatalogFormat.ParseInt | Smartbuy.py:40 | `int()` on a field succeeds only on text that, once stripped, is non-empty and ends with a digit, and gives a negative value only after a leading minus; `ParseIntOf` says which text it accepts and its value |
| CatalogFormat.ParseIntOf | Smartbuy.py:40 | `int()` accepts every run of decimal digits, leading zeros included, with an optional `+` or `-` and any whitespace around it, and reads it as that number with that sign |
| CatalogFormat.ParseCents | Smartbuy.py:39 | `float()` on a price succeeds only on non-blank text, and gives a negative price only after a leading minus; `ParseCentsWholeOf` and `ParseCentsPointOf` say which text it accepts and its value |
| CatalogFormat.ParseCentsWholeOf | Smartbuy.py:39 | `float()` accepts every run of decimal digits with an optional `+` or `-` and any whitespace around it, and reads it as that many units, in cents |
| CatalogFormat.ParseCentsPointOf | Smartbuy.py:39 | `float()` accepts digits, a point and at most two decimals, with a digit on at least one side of the point (`12.5`, `1.50`, `5.`, `.5`), an optional `+` or `-` and any whitespace around it, and reads them as units times 100 plus the cents of the decimals, with that sign |
| CatalogFormat.PriceExamples | Smartbuy.py:39 | `5` reads as 500 cents, `1.5` as 150, `-0.05` as -5; `.` and the empty field are invalid numbers |
| CatalogFormat.IntTextShape | Smartbuy.py:48 | a written stock is a number: it starts with a digit or minus, ends with a digit, and holds no comma, newline or space |
| CatalogFormat.CentsTextShape | Smartbuy.py:48 | a price written with `:.2f` has the same number shape |
| CatalogFormat.CentsTextSign | Smartbuy.py:48 | a written price carries a minus sign exactly when it is negative |
| CatalogFormat.IntRoundTrip | Smartbuy.py:40-48 | `int(str(i)) == i` for every integer |
| CatalogFormat.UnsignedCentsRoundTrip | Smartbuy.py:39-48 | a non-negative price written with two decimals parses back to the same cents |
| CatalogFormat.CentsRoundTrip | Smartbuy.py:39-48 | `float(f"{price:.2f}")` gives back the same price in cents, negative prices included |
| CatalogFormat.FormatLine | Smartbuy.py:48 | the saved line starts with the name followed by a comma and ends with a newline; `FormatLineShape` and `LineRoundTrip` give the rest |
| CatalogFormat.FormatLineShape | Smartbuy.py:48 | the saved line is `name,price,stock` and a newline; no other newline, and no comma inside the numbers |
| CatalogFormat.ParseLine | Smartbuy.py:33-43 | a line that does not load is reported with its own line number, as a format or a number error; `ThreeFields` and `ParseLineOf` say which lines load and to what |
| CatalogFormat.ThreeFields | Smartbuy.py:33-36 | a line loads only if its stripped text holds exactly two commas; with any other number of commas it is a format error on that line |
| CatalogFormat.ParseLineOf | Smartbuy.py:33-43 | a line whose stripped text is three comma-free fields loads exactly when `float()` accepts the second and `int()` the third, as the product of the first field, that price and that stock; otherwise it is a number error on that line |
| CatalogFormat.LineRoundTrip | Smartbuy.py:33-48 | parsing the line saved for a product (name with no comma, no newline, no leading whitespace) gives that product back |
| CatalogFormat.LoadedNameWellFormed | Smartbuy.py:29-37 | a name read from the file has no comma, no newline and no leading whitespace |
| CatalogFormat.ParseLines | Smartbuy.py:28-43 | a successful read of slots `i..N-1` yields exactly `N-i` products |
| CatalogFormat.ParseCatalog | Smartbuy.py:21-43 | a missing file is an error; a successful load yields exactly `NUM_ITEMS` products |
| CatalogFormat.FormatCatalog | Smartbuy.py:45-48 | the saved text of a non-empty catalog ends with a newline; `FormatCatalogAppend` and `CatalogRoundTrip` give its meaning |
| CatalogFormat.FormatCatalogAppend | Smartbuy.py:46-48 | saving one more slot appends that slot's line |
| CatalogFormat.CatalogRoundTrip | Smartbuy.py:21-48 | loading the text saved from `NUM_ITEMS` products with saveable names gives the same names, cents and stocks, whatever follows the last line |
| CatalogFormat.LoadedNamesWellFormed | Smartbuy.py:28-43 | every name in a loaded catalog can be saved and read back |
| CatalogFormat.SaveAfterLoad | Smartbuy.py:21-48 | saving a catalog that loaded gives a file that loads to the same catalog |
| OrderRules.Check | Smartbuy.py:280-301 | an order line is accepted exactly when the item number is in `1..NUM_ITEMS` and the quantity is in `1..stock` of that item |
| OrderRules.ItemCheckedFirst | Smartbuy.py:282-284 | an item number out of range is rejected whatever the quantity and stock |
| OrderRules.QuantityCheckedBeforeStock | Smartbuy.py:291-294 | a quantity below one is rejected as an invalid quantity for every stock |
| OrderRules.StockBoundary | Smartbuy.py:299-301 | ordering exactly the stock is accepted; one more is rejected for insufficient stock |
| OrderRules.Step | Smartbuy.py:299-307 | a rejected line changes nothing; an accepted one appends to `f` and `q`, adds price × quantity to the total, lowers that item's stock by the quantity to a value ≥ 0, and leaves every other slot as it was |
| OrderRules.Run | Smartbuy.py:276-307 | the order loop over the entries keeps one quantity per accepted item, at most one line per entry, and five stock slots; it is characterised by `RunTotal`, `RunStock` and `RunGrows` |
| OrderRules.RunTotal | Smartbuy.py:272-306 | after any entries, `f` and `q` have equal length, hold valid items and positive quantities, and the total is Σ `prices[f[k]-1] * q[k]` |
| OrderRules.RunStock | Smartbuy.py:299-307 | each slot ends at its opening stock minus what accepted lines ordered of it, never grows, and stays ≥ 0 if it opened ≥ 0 |
| OrderRules.StepConserves | Smartbuy.py:304-307 | one entry keeps every slot at its opening stock minus what the accepted lines took, whether the entry is accepted or not |
| OrderRules.EmptyOrder | Smartbuy.py:310-312 | an order with no accepted line leaves the stock unchanged and totals 0 |
| OrderRules.RunGrows | Smartbuy.py:299-307 | one more entry adds one line exactly when it is accepted, and changes nothing exactly when it is not |
| OrderRules.Receipt | Smartbuy.py:160-166 | the bill has one row per accepted line; `ReceiptRows` and `ReceiptTotal` give the rows' content and sum |
| OrderRules.ReceiptRows | Smartbuy.py:160-166 | bill row `k` names the item of accepted line `k` with its quantity and price, and its line total is price × quantity |
| OrderRules.ReceiptTotal | Smartbuy.py:160-168 | the bill's line totals add up to Σ price × quantity |
| OrderRules.BillBalances | Smartbuy.py:168 | the TOTAL printed on the bill equals the sum of its rows |
| OrderRules.SingleLineOrder | Smartbuy.py:304-307 | ordering 10 of item 1 from stock 100 leaves 90 and totals 10 × its price |
| OrderRules.SampleStockBoundaries | test_project.py:6-31 | with stock `[100,150,80,50,60]`: 50 of item 1, 150 of item 2, 80 of item 3 and 60 of item 5 are accepted; 51 of item 4 and 61 of item 5 are refused; items 0, 6 and -1 are invalid |
| AdminRules.EditVerdict | Smartbuy.py:213-238 | an edit is accepted exactly when the product number is in `1..NUM_ITEMS` and the new price and stock parse and are ≥ 0 |
| AdminRules.EditChecksInOrder | Smartbuy.py:213-229 | an unparsable product number, then a bad product number, then a bad price, each wins over every later answer |
| AdminRules.ApplyEdit | Smartbuy.py:240-241 | the catalog after an edit still has five slots; `EditOnlyTouchesChosenSlot` and `EditKeepsNamesAndSigns` say what changes |
| AdminRules.EditOnlyTouchesChosenSlot | Smartbuy.py:240-241 | an accepted edit sets the chosen slot's price and stock, keeps its name, and changes no other slot; a rejected edit changes nothing |
| AdminRules.EditKeepsNamesAndSigns | Smartbuy.py:224-241 | edits never rename a product, and never make a price or stock negative in a catalog where none was |
| AdminRules.EditThenReload | Smartbuy.py:83-84 | a loaded catalog, edited and saved, loads back as the edited catalog |
| SmartBuy.Catalog.constructor | Smartbuy.py:17-19 | at start-up every slot has an empty name, price 0 and stock 0 |
| SmartBuy.Catalog.Load | Smartbuy.py:21-43 | on success the slots are exactly the products `ParseCatalog` reads from the file; otherwise the error is the one `ParseCatalog` reports |
| SmartBuy.Catalog.Save | Smartbuy.py:45-48 | the text written is `FormatCatalog` of the slots, and loading it gives the slots back when every name is saveable |
| SmartBuy.Catalog.TakeOrder | Smartbuy.py:272-307 | `f`, `q`, the total and the stock are those of `Run` on the opening stock; the total is Σ price × quantity and each slot's stock fell by what was ordered of it |
| SmartBuy.Catalog.PlaceOrder | Smartbuy.py:272-317 | an order with no accepted line yields nothing and leaves the stock as it was; otherwise it yields the bill rows, a total equal to their sum, and the saved catalog text |
| SmartBuy.Catalog.EditProduct | Smartbuy.py:211-242 | the outcome is `EditVerdict` of the answers and the slots become `ApplyEdit` of the old slots |
| SmartBuy.Catalog.AdminEdit | Smartbuy.py:82-84 | an edit followed by a save of the resulting slots, whether or not the edit was accepted |

## Left out

- PDF receipts (Smartbuy.py:92-147, 322-341). They are rendered by an outside library. The model stops at the bill rows, which the PDF also receives.
- The files `bill.txt` and `transactions.log`, the `datetime.now()` stamps and the fixed-width layout of their rows (Smartbuy.py:149-209, 244-256). These are file I/O and the clock. `OrderRules.Receipt` gives the rows' content, not their padding.
- Menus, prompts, the admin password and the top-level dispatch (Smartbuy.py:50-81, 85-90, 258-271, 318-351), apart from the edit-then-save at lines 82-84 and the order session at lines 272-317, which are modelled. These are console interaction. Answers enter as parameters, with `None` for text `int()` rejects (`float()` for an edit's new price).
- The `sys.exit(1)` calls of `load_products`. They become a `LoadError` result.
- SmartBuy.Catalog.Load: does not describe the slots after an error. `load_products` sets `food_names[i]` before the numbers are checked, but the program exits straight after.
- `calculate_total`, `validate_item_number` and `validate_stock` from the `project` module (test_project.py:2). That module is not part of this model. Only the test data in test_project.py is used, as boundary cases.
- Prices are integer cents, not Python floats. So `:.2f` rounding of prices with more than two decimals, and float error in `total`, are not modelled.
- CatalogFormat.ParseCents: accepts an optional sign, digits and at most two decimals. `float()` also accepts exponents, `inf`, `nan`, underscores, longer fractions and non-ASCII decimal digits. Those inputs are read as invalid numbers here.
- CatalogFormat.ParseInt: does not accept `_` digit separators or non-ASCII digits, which Python's `int()` does.
- CatalogFormat.ReadLine: splits lines only at `\n`. The translation of `\r` and `\r\n` that Python's text mode performs is not modelled.
- Python integers are unbounded and so are Dafny's, so no width or wrap-around applies.

=== FILE: admin_rules.dfy ===
/** The rules of the admin panel's product edit: which answers it rejects,
    in which order, and what an accepted edit does to the catalog. */
module AdminRules {
  import opened Wrappers
  import opened CatalogFormat

  /** What `edit_product` reports. `InvalidInput` is a product number that
      `int()` rejects; a price or stock that does not parse and one that is
      negative draw the same error. */
  datatype EditOutcome = InvalidInput | InvalidItemNumber | InvalidPrice | InvalidStock | Updated

  /** The checks of an edit, in the order the prompts come: the product
      number, then the new price (in cents), then the new stock. Each later
      prompt is only reached when the earlier answers were accepted. */
  function EditVerdict(choice: Option<int>, price: Option<int>, stock: Option<int>): (v: EditOutcome)
    ensures v == Updated <==>
              choice.Some? && ValidItem(choice.value)
              && price.Some? && price.value >= 0 && stock.Some? && stock.value >= 0
  {
    match choice
    case None => InvalidInput
    case Some(item) =>
      if item < 1 || item > NUM_ITEMS then InvalidItemNumber
      else if price.None? || price.value < 0 then InvalidPrice
      else if stock.None? || stock.value < 0 then InvalidStock
      else Updated
  }

  /** A bad product number is reported whatever the later answers are, and
      a bad price whatever the stock answer is. */
  lemma EditChecksInOrder(choice: Option<int>, price: Option<int>, stock: Option<int>)
    ensures choice.None? ==> EditVerdict(choice, price, stock) == InvalidInput
    ensures choice.Some? && !ValidItem(choice.value) ==>
              EditVerdict(choice, price, stock) == InvalidItemNumber
    ensures choice.Some? && ValidItem(choice.value) && (price.None? || price.value < 0) ==>
              EditVerdict(choice, price, stock) == InvalidPrice
  {
  }

  /** The catalog after an edit: an accepted edit overwrites the price and
      the stock of the chosen slot; a rejected one changes nothing. */
  function ApplyEdit(ps: seq<Product>, choice: Option<int>, price: Option<int>, stock: Option<int>): (r: seq<Product>)
    requires |ps| == NUM_ITEMS
    ensures |r| == NUM_ITEMS
  {
    if EditVerdict(choice, price, stock) == Updated then
      var i := choice.value - 1;
      ps[i := Product(ps[i].name, price.value, stock.value)]
    else ps
  }

  /** An accepted edit sets the chosen slot's price and stock and keeps its
      name; every other slot is unchanged. A rejected edit changes no slot. */
  lemma EditOnlyTouchesChosenSlot(ps: seq<Product>, choice: Option<int>, price: Option<int>, stock: Option<int>)
    requires |ps| == NUM_ITEMS
    ensures var r := ApplyEdit(ps, choice, price, stock);
            if EditVerdict(choice, price, stock) == Updated then
              var i := choice.value - 1;
              r[i] == Product(ps[i].name, price.value, stock.value)
              && forall j :: 0 <= j < NUM_ITEMS && j != i ==> r[j] == ps[j]
            else r == ps
  {
  }

  /** Edits never rename a product, and never bring a negative price or
      stock into a catalog that had none. */
  lemma EditKeepsNamesAndSigns(ps: seq<Product>, choice: Option<int>, price: Option<int>, stock: Option<int>)
    requires |ps| == NUM_ITEMS
    ensures var r := ApplyEdit(ps, choice, price, stock);
            (forall j :: 0 <= j < NUM_ITEMS ==> r[j].name == ps[j].name)
            && ((forall j :: 0 <= j < NUM_ITEMS ==> ps[j].cents >= 0 && ps[j].stock >= 0) ==>
                (forall j :: 0 <= j < NUM_ITEMS ==> r[j].cents >= 0 && r[j].stock >= 0))
  {
  }

  /** A catalog that was loaded from a file, edited and saved loads back as
      the edited catalog. */
  lemma EditThenReload(text: string, ps: seq<Product>, choice: Option<int>, price: Option<int>, stock: Option<int>)
    requires ParseCatalog(Some(text)) == Success(ps)
    ensures var r := ApplyEdit(ps, choice, price, stock);
            ParseCatalog(Some(FormatCatalog(r))) == Success(r)
  {
    var r := ApplyEdit(ps, choice, price, stock);
    LoadedNamesWellFormed(text, 0);
    EditKeepsNamesAndSigns(ps, choice, price, stock);
    CatalogRoundTrip(r, "");
    assert FormatCatalog(r) + "" == FormatCatalog(r);
  }
}

=== FILE: catalog_format.dfy ===
/** The text format of the catalog file `products.txt`: one `name,price,stock`
    line per slot, prices written with two decimals. Prices are held as
    integer cents. `ParseCatalog` is what `load_products` accepts,
    `FormatCatalog` is what `save_products` writes, and the round-trip lemmas
    at the end connect the two. */
module CatalogFormat {
  import opened Wrappers

  /** Number of catalog slots (`NUM_ITEMS`). */
  const NUM_ITEMS: nat := 5

  /** One catalog slot: its name, its price in cents and its stock count. */
  datatype Product = Product(name: string, cents: int, stock: int)

  /** Why `load_products` ends the process. Line numbers are 1-based. */
  datatype LoadError =
    | CouldNotOpen
    | InsufficientData
    | InvalidFormat(lineNo: nat)
    | InvalidNumber(lineNo: nat)

  // ---------------------------------------------------------------- characters

  /** A product number that names a slot of the catalog. */
  predicate ValidItem(item: int) {
    1 <= item <= NUM_ITEMS
  }

  predicate IsDigit(c: char) { '0' <= c <= '9' }

  /** The characters Python's `str.strip()`, `int()` and `float()` treat as
      whitespace (`str.isspace()`): tab to carriage return, the four
      information separators U+001C to U+001F, the space, and the Unicode
      spaces and line and paragraph separators. */
  predicate IsSpace(c: char) {
    '\t' <= c <= '\r' || '\U{001C}' <= c <= ' '
    || c == '\U{0085}' || c == '\U{00A0}' || c == '\U{1680}' || '\U{2000}' <= c <= '\U{200A}'
    || c == '\U{2028}' || c == '\U{2029}' || c == '\U{202F}' || c == '\U{205F}' || c == '\U{3000}'
  }

  predicate AllDigits(s: string) {
    forall k :: 0 <= k < |s| ==> IsDigit(s[k])
  }

  /** A character that can occur in a number written by `save_products`. */
  predicate IsNumeric(c: char) {
    IsDigit(c) || c == '-' || c == '.'
  }

  /** The text of a number written by `save_products`: it starts with a digit
      or a minus sign, ends with a digit, and holds no comma, newline or
      whitespace. */
  predicate NumberShaped(s: string) {
    |s| > 0 && (IsDigit(s[0]) || s[0] == '-') && IsDigit(s[|s| - 1])
    && forall k :: 0 <= k < |s| ==> IsNumeric(s[k])
  }

  function DigitChar(d: nat): (c: char)
    requires d < 10
    ensures IsDigit(c)
  {
    ('0' as int + d) as char
  }

  function DigitValue(c: char): (d: nat)
    requires IsDigit(c)
    ensures d < 10 && DigitChar(d) == c
  {
    c as int - '0' as int
  }

  // ------------------------------------------------------------ whole numbers

  /** Decimal text of a natural number, as Python's `str` writes it. */
  function NatText(n: nat): string
    decreases n
  {
    if n < 10 then [DigitChar(n)] else NatText(n / 10) + [DigitChar(n % 10)]
  }

  /** The value of a string of decimal digits; the empty string is 0. */
  function DigitsValue(s: string): nat
    requires AllDigits(s)
  {
    if s == [] then 0 else DigitsValue(s[..|s| - 1]) * 10 + DigitValue(s[|s| - 1])
  }

  /** `str(n)` writes at least one digit and nothing else, and reading the
      digits back gives `n`. */
  lemma {:induction false} NatTextRoundTrip(n: nat)
    ensures |NatText(n)| > 0 && AllDigits(NatText(n)) && DigitsValue(NatText(n)) == n
    decreases n
  {
    if n >= 10 {
      NatTextRoundTrip(n / 10);
      var s := NatText(n);
      assert s[..|s| - 1] == NatText(n / 10);
    }
  }

  // ---------------------------------------------------------------- stripping

  function StripLeft(s: string): string
  {
    if s != [] && IsSpace(s[0]) then StripLeft(s[1..]) else s
  }

  function StripRight(s: string): string
  {
    if s != [] && IsSpace(s[|s| - 1]) then StripRight(s[..|s| - 1]) else s
  }

  /** Python's `str.strip()`: leading and trailing whitespace removed. */
  function Strip(s: string): (r: string)
    ensures |r| <= |s| && (r == [] || (!IsSpace(r[0]) && !IsSpace(r[|r| - 1])))
  {
    StripRightPrefix(s);
    StripLeftSuffix(StripRight(s));
    StripLeft(StripRight(s))
  }

  /** Stripping on the left keeps a suffix that does not start with whitespace. */
  lemma {:induction false} StripLeftSuffix(s: string)
    ensures var r := StripLeft(s); |r| <= |s| && r == s[|s| - |r|..] && (r == [] || !IsSpace(r[0]))
  {
    if s != [] && IsSpace(s[0]) {
      StripLeftSuffix(s[1..]);
    }
  }

  /** Stripping on the right keeps a prefix that does not end with whitespace. */
  lemma {:induction false} StripRightPrefix(s: string)
    ensures var r := StripRight(s); |r| <= |s| && r == s[..|r|] && (r == [] || !IsSpace(r[|r| - 1]))
  {
    if s != [] && IsSpace(s[|s| - 1]) {
      StripRightPrefix(s[..|s| - 1]);
    }
  }

  /** Stripping on the left removes only whitespace. */
  lemma {:induction false} StripLeftRemovesSpace(s: string)
    ensures |StripLeft(s)| <= |s|
    ensures forall k :: 0 <= k < |s| - |StripLeft(s)| ==> IsSpace(s[k])
  {
    if s != [] && IsSpace(s[0]) {
      StripLeftRemovesSpace(s[1..]);
      assert forall k :: 1 <= k < |s| ==> s[k] == s[1..][k - 1];
    }
  }

  /** Stripping on the right removes only whitespace. */
  lemma {:induction false} StripRightRemovesSpace(s: string)
    ensures |StripRight(s)| <= |s|
    ensures forall k :: |StripRight(s)| <= k < |s| ==> IsSpace(s[k])
  {
    if s != [] && IsSpace(s[|s| - 1]) {
      StripRightRemovesSpace(s[..|s| - 1]);
    }
  }

  /** `strip()` keeps one contiguous part of the text, removes only
      whitespace around it, and leaves no whitespace at either end of it;
      so a text that is all whitespace strips to nothing. */
  lemma StripExactly(s: string)
    ensures var right, r := StripRight(s), Strip(s);
            |r| <= |right| <= |s| && r == s[|right| - |r|..|right|]
            && (forall k :: 0 <= k < |right| - |r| ==> IsSpace(s[k]))
            && (forall k :: |right| <= k < |s| ==> IsSpace(s[k]))
            && (r != [] ==> !IsSpace(r[0]) && !IsSpace(r[|r| - 1]))
  {
    var right, r := StripRight(s), Strip(s);
    StripRightPrefix(s);
    StripRightRemovesSpace(s);
    StripLeftSuffix(right);
    StripLeftRemovesSpace(right);
    assert forall k :: 0 <= k < |right| ==> right[k] == s[k];
    if r != [] {
      assert r[|r| - 1] == right[|right| - 1];
    }
  }

  /** Stripping leaves a text that starts and ends with non-whitespace unchanged. */
  lemma StripKeeps(s: string)
    requires s != [] && !IsSpace(s[0]) && !IsSpace(s[|s| - 1])
    ensures Strip(s) == s
  {
  }

  /** The stripped text of a line whose only newline is its last character
      holds no newline and does not start with whitespace. */
  lemma StripDropsNewline(line: string)
    requires forall k :: 0 <= k < |line| - 1 ==> line[k] != '\n'
    ensures var r := Strip(line); '\n' !in r && (r == [] || !IsSpace(r[0]))
  {
    var right := StripRight(line);
    StripRightPrefix(line);
    assert forall k :: 0 <= k < |right| ==> right[k] != '\n' by {
      if |right| == |line| {
        assert right == line;
      }
    }
    var both := StripLeft(right);
    StripLeftSuffix(right);
    assert forall k :: 0 <= k < |both| ==> both[k] == right[|right| - |both| + k];
  }

  predicate AllSpace(s: string) {
    forall k :: 0 <= k < |s| ==> IsSpace(s[k])
  }

  /** Stripping on the left removes a whitespace prefix and stops at the
      first other character. */
  lemma {:induction false} StripLeftOf(pre: string, x: string)
    requires AllSpace(pre) && (x == [] || !IsSpace(x[0]))
    ensures StripLeft(pre + x) == x
  {
    if pre != [] {
      assert (pre + x)[0] == pre[0] && (pre + x)[1..] == pre[1..] + x;
      StripLeftOf(pre[1..], x);
    } else {
      assert pre + x == x;
    }
  }

  /** Stripping on the right removes a whitespace suffix and stops at the
      last other character. */
  lemma {:induction false} StripRightOf(x: string, post: string)
    requires AllSpace(post) && (x == [] || !IsSpace(x[|x| - 1]))
    ensures StripRight(x + post) == x
  {
    if post != [] {
      var s := x + post;
      assert s[|s| - 1] == post[|post| - 1] && s[..|s| - 1] == x + post[..|post| - 1];
      StripRightOf(x, post[..|post| - 1]);
    } else {
      assert x + post == x;
    }
  }

  /** `strip()` of a text surrounded by whitespace is that text, when it
      neither starts nor ends with whitespace itself. */
  lemma {:induction false} StripOf(pre: string, x: string, post: string)
    requires AllSpace(pre) && AllSpace(post)
    requires x != [] && !IsSpace(x[0]) && !IsSpace(x[|x| - 1])
    ensures Strip(pre + x + post) == x
  {
    StripRightOf(pre + x, post);
    StripLeftOf(pre, x);
  }

  // ---------------------------------------------------------------- splitting

  /** Python's `str.split(sep)`: the pieces between separators, empty pieces kept. */
  function Split(s: string, sep: char): (parts: seq<string>)
    ensures |parts| >= 1
  {
    if s == [] then [[]]
    else
      var rest := Split(s[1..], sep);
      if s[0] == sep then [[]] + rest
      else [[s[0]] + rest[0]] + rest[1..]
  }

  /** Python's `sep.join(parts)`. */
  function Join(parts: seq<string>, sep: char): string
    requires |parts| >= 1
  {
    if |parts| == 1 then parts[0] else parts[0] + [sep] + Join(parts[1..], sep)
  }

  /** The first piece of a split is a prefix of the text, and holds no separator. */
  lemma {:induction false} SplitFirst(s: string, sep: char)
    ensures Split(s, sep)[0] <= s && sep !in Split(s, sep)[0]
  {
    if s != [] {
      SplitFirst(s[1..], sep);
    }
  }

  /** No piece of a split holds the separator. */
  lemma {:induction false} SplitPiecesFree(s: string, sep: char)
    ensures forall k :: 0 <= k < |Split(s, sep)| ==> sep !in Split(s, sep)[k]
  {
    if s != [] {
      SplitPiecesFree(s[1..], sep);
      var rest := Split(s[1..], sep);
      if s[0] != sep {
        assert sep !in [s[0]] + rest[0];
        assert forall k :: 1 <= k < |Split(s, sep)| ==> Split(s, sep)[k] == rest[k];
      } else {
        assert forall k :: 1 <= k < |Split(s, sep)| ==> Split(s, sep)[k] == rest[k - 1];
      }
    }
  }

  lemma {:induction false} SplitWithoutSeparator(s: string, sep: char)
    requires sep !in s
    ensures Split(s, sep) == [s]
  {
    if s != [] {
      assert s[0] != sep && sep !in s[1..];
      SplitWithoutSeparator(s[1..], sep);
      assert [s[0]] + s[1..] == s;
    }
  }

  lemma {:induction false} SplitAtFirst(a: string, sep: char, b: string)
    requires sep !in a
    ensures Split(a + [sep] + b, sep) == [a] + Split(b, sep)
  {
    if a == [] {
      assert (a + [sep] + b)[1..] == b;
    } else {
      assert (a + [sep] + b)[1..] == a[1..] + [sep] + b;
      SplitAtFirst(a[1..], sep, b);
      assert [a[0]] + a[1..] == a;
    }
  }

  /** Splitting undoes joining pieces that hold no separator. */
  lemma {:induction false} SplitJoin(parts: seq<string>, sep: char)
    requires |parts| >= 1
    requires forall k :: 0 <= k < |parts| ==> sep !in parts[k]
    ensures Split(Join(parts, sep), sep) == parts
  {
    if |parts| == 1 {
      SplitWithoutSeparator(parts[0], sep);
    } else {
      SplitJoin(parts[1..], sep);
      SplitAtFirst(parts[0], sep, Join(parts[1..], sep));
      assert [parts[0]] + parts[1..] == parts;
    }
  }

  /** Joining undoes splitting. */
  lemma {:induction false} JoinSplit(s: string, sep: char)
    ensures Join(Split(s, sep), sep) == s
  {
    if s != [] {
      JoinSplit(s[1..], sep);
      var rest := Split(s[1..], sep);
      if s[0] != sep && |rest| > 1 {
        assert rest == [rest[0]] + rest[1..];
      }
    }
  }

  /** A split has one piece more than the text has separators. */
  lemma {:induction false} SplitCount(s: string, sep: char)
    ensures |Split(s, sep)| == multiset(s)[sep] + 1
  {
    if s != [] {
      SplitCount(s[1..], sep);
      assert s == [s[0]] + s[1..];
      assert multiset(s) == multiset([s[0]]) + multiset(s[1..]);
    }
  }

  // ---------------------------------------------------------------- lines

  /** Python's `file.readline()` on the unread text `s`: the text up to and
      including the first newline, and what remains. At the end of the file
      the line is empty. */
  function ReadLine(s: string): (r: (string, string))
    ensures r.0 + r.1 == s
  {
    if s == [] then ([], [])
    else if s[0] == '\n' then ([s[0]], s[1..])
    else
      var (line, rest) := ReadLine(s[1..]);
      ([s[0]] + line, rest)
  }

  /** `readline()` splits the text without losing any of it, returns an
      empty line only at the end, and stops at the first newline: the line
      holds no newline before its last character, and it ends with one
      unless it runs to the end of the text. */
  lemma {:induction false} ReadLineSplits(s: string)
    ensures var r := ReadLine(s);
            r.0 + r.1 == s && (r.0 == [] <==> s == [])
            && (forall k :: 0 <= k < |r.0| - 1 ==> r.0[k] != '\n')
            && (r.1 != [] ==> r.0 != [] && r.0[|r.0| - 1] == '\n')
  {
    if s != [] && s[0] != '\n' {
      ReadLineSplits(s[1..]);
      var r := ReadLine(s[1..]);
      assert ReadLine(s) == ([s[0]] + r.0, r.1);
    }
  }

  lemma {:induction false} ReadLineOf(t: string, rest: string)
    requires '\n' !in t
    ensures ReadLine(t + "\n" + rest) == (t + "\n", rest)
  {
    var s := t + "\n" + rest;
    if t == [] {
      assert s[0] == '\n' && s[1..] == rest && t + "\n" == [s[0]];
    } else {
      assert s[0] == t[0] && s[0] != '\n';
      assert s[1..] == t[1..] + "\n" + rest;
      ReadLineOf(t[1..], rest);
      assert [t[0]] + (t[1..] + "\n") == t + "\n";
    }
  }

  // ---------------------------------------------------------------- numbers

  /** An optional leading sign: whether it is a minus, and the text after it. */
  function Unsign(t: string): (bool, string)
  {
    if |t| > 0 && (t[0] == '-' || t[0] == '+') then (t[0] == '-', t[1..]) else (false, t)
  }

  function Signed(negative: bool, m: nat): int
  {
    var v: int := m;
    if negative then -v else v
  }

  /** Python's `int()` on a field: an optional sign and decimal digits,
      surrounding whitespace ignored. */
  function ParseInt(s: string): (r: Option<int>)
    ensures r.Some? ==> Strip(s) != [] && IsDigit(Strip(s)[|Strip(s)| - 1])
                        && (r.value < 0 ==> Strip(s)[0] == '-')
  {
    var (negative, body) := Unsign(Strip(s));
    if |body| > 0 && AllDigits(body) then Some(Signed(negative, DigitsValue(body))) else None
  }

  /** `str(i)` for an integer. */
  function IntText(i: int): string
  {
    if i < 0 then "-" + NatText(-i) else NatText(i)
  }

  /** The cents written by the digits after a decimal point (at most two). */
  function FractionCents(f: string): (c: nat)
    requires AllDigits(f) && |f| <= 2
    ensures c < 100
  {
    if |f| == 0 then 0
    else if |f| == 1 then DigitValue(f[0]) * 10
    else DigitValue(f[0]) * 10 + DigitValue(f[1])
  }

  /** An unsigned price in whole cents: digits, and an optional point with at
      most two decimals (`5`, `5.`, `.5`, `5.25`). */
  function ParseUnsignedCents(body: string): Option<nat>
  {
    var parts := Split(body, '.');
    if |parts| == 1 && |parts[0]| > 0 && AllDigits(parts[0]) then
      Some(DigitsValue(parts[0]) * 100)
    else if |parts| == 2 && AllDigits(parts[0]) && AllDigits(parts[1])
            && |parts[1]| <= 2 && |parts[0]| + |parts[1]| > 0 then
      Some(DigitsValue(parts[0]) * 100 + FractionCents(parts[1]))
    else None
  }

  /** Python's `float()` on a price field, for prices in whole cents: an
      optional sign before an unsigned price, surrounding whitespace ignored. */
  function ParseCents(s: string): (r: Option<int>)
    ensures r.Some? ==> Strip(s) != [] && (r.value < 0 ==> Strip(s)[0] == '-')
  {
    var (negative, body) := Unsign(Strip(s));
    match ParseUnsignedCents(body)
    case None => None
    case Some(m) => Some(Signed(negative, m))
  }

  /** `f"{price:.2f}"` for a non-negative price of `m` cents. */
  function UnsignedCentsText(m: nat): string
  {
    NatText(m / 100) + "." + [DigitChar(m % 100 / 10), DigitChar(m % 10)]
  }

  /** `f"{price:.2f}"` for a price of `c` cents. */
  function CentsText(c: int): string
  {
    if c < 0 then "-" + UnsignedCentsText(-c) else UnsignedCentsText(c)
  }

  /** Two digits are worth ten times the first plus the second. */
  lemma TwoDigitsValue(a: char, b: char)
    requires IsDigit(a) && IsDigit(b)
    ensures DigitsValue([a, b]) == DigitValue(a) * 10 + DigitValue(b)
  {
    var s := [a, b];
    assert s[..|s| - 1] == [a] && [a][..0] == [];
    assert DigitsValue([a]) == DigitValue(a);
  }

  /** Up to two decimals are worth the cents they spell once padded with
      zeros to two digits: `.5` is 50 cents, `.05` is 5, and no decimals 0. */
  lemma FractionCentsValue(f: string)
    requires AllDigits(f) && |f| <= 2
    ensures var padded := f + seq(2 - |f|, _ => '0');
            |padded| == 2 && AllDigits(padded) && FractionCents(f) == DigitsValue(padded)
  {
    var padded := f + seq(2 - |f|, _ => '0');
    assert padded == [padded[0], padded[1]];
    TwoDigitsValue(padded[0], padded[1]);
  }

  /** Prices as `float()` reads them from the file: no decimals, one decimal,
      two decimals, a sign and surrounding whitespace. */
  lemma PriceExamples()
    ensures ParseCents("5") == Some(500)
    ensures ParseCents("1.5") == Some(150)
    ensures ParseCents("-0.05") == Some(-5)
    ensures ParseCents(".") == None && ParseCents("") == None
  {
    WholePriceExample();
    OneDecimalExample();
    NegativePriceExample();
    RejectedPriceExamples();
  }

  lemma WholePriceExample()
    ensures ParseCents("5") == Some(500)
  {
    assert DigitsValue("5") == 5 by { assert "5"[..0] == []; }
    ParseCentsWholeOf("", "", "5", "");
    assert "" + ("" + "5") + "" == "5";
  }

  lemma OneDecimalExample()
    ensures ParseCents("1.5") == Some(150)
  {
    assert DigitsValue("1") == 1 by { assert "1"[..0] == []; }
    ParseCentsPointOf("", "", "1", "5", "");
    assert "" + ("" + ("1" + "." + "5")) + "" == "1.5";
  }

  lemma NegativePriceExample()
    ensures ParseCents("-0.05") == Some(-5)
  {
    assert DigitsValue("0") == 0 by { assert "0"[..0] == []; }
    TwoDigitsValue('0', '5');
    ParseCentsPointOf("", "-", "0", "05", "");
    assert "" + ("-" + ("0" + "." + "05")) + "" == "-0.05";
  }

  lemma RejectedPriceExamples()
    ensures ParseCents(".") == None && ParseCents("") == None
  {
    StripKeeps(".");
    SplitWithoutSeparator("", '.');
    SplitAtFirst("", '.', "");
    assert "" + ['.'] + "" == ".";
  }



  lemma DigitsAreNumbers(s: string)
    requires |s| > 0 && AllDigits(s)
    ensures NumberShaped(s) && NumberShaped("-" + s)
  {
    var t := "-" + s;
    assert forall k :: 1 <= k < |t| ==> t[k] == s[k - 1];
  }

  lemma IntTextShape(i: int)
    ensures NumberShaped(IntText(i))
  {
    NatTextRoundTrip(if i < 0 then -i else i);
    DigitsAreNumbers(NatText(if i < 0 then -i else i));
  }

  lemma CentsTextShape(c: int)
    ensures NumberShaped(CentsText(c))
  {
    var m := if c < 0 then -c else c;
    var whole := NatText(m / 100);
    NatTextRoundTrip(m / 100);
    var u := UnsignedCentsText(m);
    assert forall k :: 0 <= k < |whole| ==> u[k] == whole[k];
    assert forall k :: |whole| <= k < |u| ==> IsNumeric(u[k]);
    if c < 0 {
      var t := "-" + u;
      assert forall k :: 1 <= k < |t| ==> t[k] == u[k - 1];
    }
  }

  /** Reading `str(i)` back with `int()` gives `i`. */
  lemma IntRoundTrip(i: int)
    ensures ParseInt(IntText(i)) == Some(i)
  {
    IntTextShape(i);
    StripKeeps(IntText(i));
    if i < 0 {
      assert IntText(i)[1..] == NatText(-i);
      NatTextRoundTrip(-i);
    } else {
      NatTextRoundTrip(i);
    }
  }

  lemma UnsignedCentsRoundTrip(m: nat)
    ensures ParseUnsignedCents(UnsignedCentsText(m)) == Some(m)
  {
    var whole, fraction := NatText(m / 100), [DigitChar(m % 100 / 10), DigitChar(m % 10)];
    NatTextRoundTrip(m / 100);
    assert '.' !in whole by {
      assert forall k :: 0 <= k < |whole| ==> IsDigit(whole[k]);
    }
    SplitAtFirst(whole, '.', fraction);
    SplitWithoutSeparator(fraction, '.');
    assert Split(UnsignedCentsText(m), '.') == [whole, fraction];
    assert FractionCents(fraction) == m % 100;
  }

  /** Reading a price written with two decimals back gives the same cents. */
  lemma CentsRoundTrip(c: int)
    ensures ParseCents(CentsText(c)) == Some(c)
  {
    CentsTextShape(c);
    StripKeeps(CentsText(c));
    CentsTextSign(c);
    UnsignedCentsRoundTrip(if c < 0 then -c else c);
  }

  /** The sign of a written price is the only sign in front of it. */
  lemma CentsTextSign(c: int)
    ensures Unsign(CentsText(c)) == (c < 0, UnsignedCentsText(if c < 0 then -c else c))
  {
    if c >= 0 {
      NatTextRoundTrip(c / 100);
    }
  }

  /** `int()` and `float()` read a field through these three steps: strip
      it, take off an optional sign, and read the unsigned rest. */
  lemma {:induction false} ParseThrough(s: string, negative: bool, body: string)
    requires Unsign(Strip(s)) == (negative, body)
    ensures ParseInt(s) == if |body| > 0 && AllDigits(body) then Some(Signed(negative, DigitsValue(body))) else None
    ensures ParseCents(s) == match ParseUnsignedCents(body)
                             case None => None
                             case Some(m) => Some(Signed(negative, m))
  {
  }

  /** A sign in front of a text that does not start with a sign is taken
      off; a minus makes the value negative. */
  lemma {:induction false} UnsignOf(sign: string, body: string)
    requires sign == "" || sign == "-" || sign == "+"
    requires body != [] && body[0] != '-' && body[0] != '+'
    ensures Unsign(sign + body) == (sign == "-", body)
  {
    if sign == "" {
      assert sign + body == body;
    } else {
      assert (sign + body)[0] == sign[0] && (sign + body)[1..] == body;
    }
  }

  /** The text `pre + (sign + body) + post`, with whitespace around an
      optionally signed body that starts and ends with no whitespace and no
      sign, is read as that sign and body. */
  lemma {:induction false} FieldOf(pre: string, sign: string, body: string, post: string)
    requires AllSpace(pre) && AllSpace(post) && (sign == "" || sign == "-" || sign == "+")
    requires body != [] && body[0] != '-' && body[0] != '+'
    requires !IsSpace(body[0]) && !IsSpace(body[|body| - 1])
    ensures Unsign(Strip(pre + (sign + body) + post)) == (sign == "-", body)
  {
    var x := sign + body;
    assert x[|x| - 1] == body[|body| - 1];
    assert x[0] == if sign == "" then body[0] else sign[0];
    StripOf(pre, x, post);
    UnsignOf(sign, body);
  }

  /** `int()` accepts every optionally signed run of decimal digits with
      whitespace around it, leading zeros included, and reads its value. */
  lemma {:induction false} ParseIntOf(pre: string, sign: string, d: string, post: string)
    requires AllSpace(pre) && AllSpace(post) && (sign == "" || sign == "-" || sign == "+")
    requires d != [] && AllDigits(d)
    ensures ParseInt(pre + (sign + d) + post) == Some(Signed(sign == "-", DigitsValue(d)))
  {
    FieldOf(pre, sign, d, post);
    ParseThrough(pre + (sign + d) + post, sign == "-", d);
  }

  /** Digits with no point are a whole number of units. */
  lemma {:induction false} UnsignedWholeOf(w: string)
    requires w != [] && AllDigits(w)
    ensures ParseUnsignedCents(w) == Some(DigitsValue(w) * 100)
  {
    SplitWithoutSeparator(w, '.');
  }

  /** Digits, a point and at most two decimals, with a digit on at least one
      side of the point, are that many units and cents. */
  lemma {:induction false} UnsignedPointOf(w: string, f: string)
    requires AllDigits(w) && AllDigits(f) && |f| <= 2 && |w| + |f| > 0
    ensures ParseUnsignedCents(w + "." + f) == Some(DigitsValue(w) * 100 + FractionCents(f))
  {
    SplitPoint(w, f);
    UnsignedOfParts(w + "." + f, w, f);
  }

  /** A price whose split at the point gives digits and at most two
      decimals is read as units and cents. */
  lemma {:induction false} UnsignedOfParts(body: string, w: string, f: string)
    requires Split(body, '.') == [w, f]
    requires AllDigits(w) && AllDigits(f) && |f| <= 2 && |w| + |f| > 0
    ensures ParseUnsignedCents(body) == Some(DigitsValue(w) * 100 + FractionCents(f))
  {
  }

  /** Digits split at a single point into the whole part and the decimals. */
  lemma {:induction false} SplitPoint(w: string, f: string)
    requires AllDigits(w) && AllDigits(f)
    ensures Split(w + "." + f, '.') == [w, f]
  {
    assert '.' !in w by {
      assert forall k :: 0 <= k < |w| ==> IsDigit(w[k]);
    }
    assert '.' !in f by {
      assert forall k :: 0 <= k < |f| ==> IsDigit(f[k]);
    }
    SplitAtFirst(w, '.', f);
    SplitWithoutSeparator(f, '.');
    assert w + "." + f == w + ['.'] + f;
  }



  /** `float()` accepts every optionally signed whole number with
      whitespace around it, and reads it as that many units. */
  lemma {:induction false} ParseCentsWholeOf(pre: string, sign: string, w: string, post: string)
    requires AllSpace(pre) && AllSpace(post) && (sign == "" || sign == "-" || sign == "+")
    requires w != [] && AllDigits(w)
    ensures ParseCents(pre + (sign + w) + post) == Some(Signed(sign == "-", DigitsValue(w) * 100))
  {
    UnsignedWholeOf(w);
    ParseCentsField(pre, sign, w, post, DigitsValue(w) * 100);
  }

  /** `float()` accepts every optionally signed price with at most two
      decimals (`12.5`, `1.50`, `5.`, `.5`) and whitespace around it, and
      reads it as units and cents. */
  lemma {:induction false} ParseCentsPointOf(pre: string, sign: string, w: string, f: string, post: string)
    requires AllSpace(pre) && AllSpace(post) && (sign == "" || sign == "-" || sign == "+")
    requires AllDigits(w) && AllDigits(f) && |f| <= 2 && |w| + |f| > 0
    ensures ParseCents(pre + (sign + (w + "." + f)) + post)
            == Some(Signed(sign == "-", DigitsValue(w) * 100 + FractionCents(f)))
  {
    var body, m := w + "." + f, DigitsValue(w) * 100 + FractionCents(f);
    PointedBody(w, f, body);
    UnsignedPointOf(w, f);
    ParseCentsField(pre, sign, body, post, m);
  }

  /** `float()` reads a valid price with an optional sign and whitespace
      around it as that price with the sign. */
  lemma {:induction false} ParseCentsField(pre: string, sign: string, body: string, post: string, m: nat)
    requires AllSpace(pre) && AllSpace(post) && (sign == "" || sign == "-" || sign == "+")
    requires body != [] && body[0] != '-' && body[0] != '+'
    requires !IsSpace(body[0]) && !IsSpace(body[|body| - 1])
    requires ParseUnsignedCents(body) == Some(m)
    ensures ParseCents(pre + (sign + body) + post) == Some(Signed(sign == "-", m))
  {
    FieldOf(pre, sign, body, post);
    ParseThrough(pre + (sign + body) + post, sign == "-", body);
  }


  /** A price with a point starts and ends with a digit or the point. */
  lemma {:induction false} PointedBody(w: string, f: string, body: string)
    requires AllDigits(w) && AllDigits(f) && body == w + "." + f
    ensures body != [] && body[0] != '-' && body[0] != '+'
            && !IsSpace(body[0]) && !IsSpace(body[|body| - 1])
  {
    assert body[0] == if w == [] then '.' else w[0];
    assert body[|body| - 1] == if f == [] then '.' else f[|f| - 1];
  }


  // ---------------------------------------------------------------- catalog lines

  /** A name that survives a save and a load unchanged: the line format has
      no escaping, and `strip()` would eat leading whitespace. */
  predicate WellFormedName(name: string) {
    ',' !in name && '\n' !in name && (name == [] || !IsSpace(name[0]))
  }

  predicate AllNamesWellFormed(ps: seq<Product>) {
    forall k :: 0 <= k < |ps| ==> WellFormedName(ps[k].name)
  }

  lemma NamesWellFormedCons(p: Product, ps: seq<Product>)
    ensures AllNamesWellFormed([p] + ps) <==> WellFormedName(p.name) && AllNamesWellFormed(ps)
  {
    var v := [p] + ps;
    assert v[0] == p;
    assert forall k :: 0 < k < |v| ==> v[k] == ps[k - 1];
    assert forall k :: 0 <= k < |ps| ==> ps[k] == v[k + 1];
  }

  /** The line `save_products` writes for one slot. */
  function FormatLine(p: Product): (r: string)
    ensures |r| > |p.name| && r[..|p.name|] == p.name && r[|p.name|] == ',' && r[|r| - 1] == '\n'
  {
    JoinThree(p.name, CentsText(p.cents), IntText(p.stock), ',');
    Join([p.name, CentsText(p.cents), IntText(p.stock)], ',') + "\n"
  }

  /** How `load_products` reads the (non-empty) line numbered `lineNo`:
      exactly three comma-separated fields, then the price and the stock. */
  function ParseLine(line: string, lineNo: nat): (r: Result<Product, LoadError>)
    ensures r.Failure? ==> r.error == InvalidFormat(lineNo) || r.error == InvalidNumber(lineNo)
  {
    var parts := Split(Strip(line), ',');
    if |parts| != 3 then Failure(InvalidFormat(lineNo))
    else
      match (ParseCents(parts[1]), ParseInt(parts[2]))
      case (Some(price), Some(count)) => Success(Product(parts[0], price, count))
      case _ => Failure(InvalidNumber(lineNo))
  }

  lemma JoinThree(a: string, b: string, c: string, sep: char)
    ensures Join([a, b, c], sep) == a + [sep] + b + [sep] + c
  {
    assert [a, b, c][1..] == [b, c];
    assert [b, c][1..] == [c];
    assert Join([b, c], sep) == b + [sep] + c;
    assert Join([a, b, c], sep) == a + [sep] + (b + [sep] + c);
  }

  /** The line `save_products` writes for `p`: its three fields, the numbers
      free of commas and newlines, then a newline. */
  lemma FormatLineShape(p: Product)
    requires WellFormedName(p.name)
    ensures var t := p.name + [','] + CentsText(p.cents) + [','] + IntText(p.stock);
            FormatLine(p) == t + "\n" && '\n' !in t && !IsSpace(t[0]) && !IsSpace(t[|t| - 1])
            && ',' !in CentsText(p.cents) && ',' !in IntText(p.stock)
  {
    var price, count := CentsText(p.cents), IntText(p.stock);
    JoinThree(p.name, price, count, ',');
    CentsTextShape(p.cents);
    IntTextShape(p.stock);
    var t := p.name + [','] + price + [','] + count;
    assert t == (p.name + [','] + price + [',']) + count;
    assert t[0] == if p.name == [] then ',' else p.name[0];
    assert forall k :: 0 <= k < |price| ==> price[k] != ',' && price[k] != '\n';
    assert forall k :: 0 <= k < |count| ==> count[k] != ',' && count[k] != '\n';
    assert forall k :: 0 <= k < |t| ==> t[k] != '\n';
  }

  /** Reading a saved line gives back the slot it was written from. */
  lemma LineRoundTrip(p: Product, lineNo: nat)
    requires WellFormedName(p.name)
    ensures ParseLine(FormatLine(p), lineNo) == Success(p)
  {
    var price, count := CentsText(p.cents), IntText(p.stock);
    FormatLineShape(p);
    var t := p.name + [','] + price + [','] + count;
    assert (t + "\n")[..|t|] == t;
    StripKeeps(t);
    assert Strip(FormatLine(p)) == t;
    JoinThree(p.name, price, count, ',');
    SplitJoin([p.name, price, count], ',');
    CentsRoundTrip(p.cents);
    IntRoundTrip(p.stock);
  }

  /** The name read from a line holds no comma, no newline and no leading
      whitespace, so it can be saved again. */
  lemma LoadedNameWellFormed(line: string, lineNo: nat)
    requires forall k :: 0 <= k < |line| - 1 ==> line[k] != '\n'
    requires ParseLine(line, lineNo).Success?
    ensures WellFormedName(ParseLine(line, lineNo).value.name)
  {
    var stripped := Strip(line);
    var name := Split(stripped, ',')[0];
    StripDropsNewline(line);
    SplitFirst(stripped, ',');
    assert forall k :: 0 <= k < |name| ==> name[k] == stripped[k];
  }

  /** A line loads only if its stripped text holds exactly two commas;
      with any other number it is a format error on that line. */
  lemma {:induction false} ThreeFields(line: string, lineNo: nat)
    ensures ParseLine(line, lineNo).Success? ==> multiset(Strip(line))[','] == 2
    ensures multiset(Strip(line))[','] != 2 ==> ParseLine(line, lineNo) == Failure(InvalidFormat(lineNo))
  {
    SplitCount(Strip(line), ',');
  }

  /** A line whose stripped text is three comma-free fields loads exactly
      when the price and the stock parse, as the product they name;
      otherwise it is a number error on that line. */
  lemma {:induction false} ParseLineOf(line: string, lineNo: nat, name: string, price: string, count: string)
    requires ',' !in name && ',' !in price && ',' !in count
    requires Strip(line) == name + "," + price + "," + count
    ensures ParseLine(line, lineNo)
            == if ParseCents(price).Some? && ParseInt(count).Some?
               then Success(Product(name, ParseCents(price).value, ParseInt(count).value))
               else Failure(InvalidNumber(lineNo))
  {
    JoinThree(name, price, count, ',');
    assert name + "," + price + "," + count == name + [','] + price + [','] + count;
    SplitJoin([name, price, count], ',');
  }

  // ---------------------------------------------------------------- the catalog file

  function Prepend(ps: seq<Product>, r: Result<seq<Product>, LoadError>): Result<seq<Product>, LoadError>
  {
    match r
    case Success(qs) => Success(ps + qs)
    case Failure(e) => Failure(e)
  }

  lemma PrependNothing(r: Result<seq<Product>, LoadError>)
    ensures Prepend([], r) == r
  {
    if r.Success? {
      assert [] + r.value == r.value;
    }
  }

  lemma PrependTwice(a: seq<Product>, b: seq<Product>, r: Result<seq<Product>, LoadError>)
    ensures Prepend(a, Prepend(b, r)) == Prepend(a + b, r)
  {
    if r.Success? {
      assert a + (b + r.value) == (a + b) + r.value;
    }
  }

  /** What `load_products` does with the unread text `s` when slots `i` and
      onwards remain to be read: one line per slot, an empty read meaning the
      file ended early. Lines after the last slot are ignored. */
  function ParseLines(s: string, i: nat): (r: Result<seq<Product>, LoadError>)
    requires i <= NUM_ITEMS
    ensures r.Success? ==> |r.value| == NUM_ITEMS - i
    decreases NUM_ITEMS - i
  {
    if i == NUM_ITEMS then Success([])
    else
      var (line, rest) := ReadLine(s);
      if line == [] then Failure(InsufficientData)
      else
        match ParseLine(line, i + 1)
        case Failure(e) => Failure(e)
        case Success(p) => Prepend([p], ParseLines(rest, i + 1))
  }

  /** `load_products`: `None` is a missing file. */
  function ParseCatalog(file: Option<string>): (r: Result<seq<Product>, LoadError>)
    ensures r.Success? ==> |r.value| == NUM_ITEMS
    ensures file.None? ==> r == Failure(CouldNotOpen)
  {
    match file
    case None => Failure(CouldNotOpen)
    case Some(text) => ParseLines(text, 0)
  }

  /** The whole text `save_products` writes. */
  function FormatCatalog(ps: seq<Product>): (r: string)
    ensures ps != [] ==> |r| > 0 && r[|r| - 1] == '\n'
  {
    if ps == [] then "" else FormatLine(ps[0]) + FormatCatalog(ps[1..])
  }

  lemma {:induction false} FormatCatalogAppend(ps: seq<Product>, p: Product)
    ensures FormatCatalog(ps + [p]) == FormatCatalog(ps) + FormatLine(p)
  {
    var qs := ps + [p];
    if ps != [] {
      assert qs[0] == ps[0] && qs[1..] == ps[1..] + [p];
      FormatCatalogAppend(ps[1..], p);
    } else {
      assert qs[1..] == [];
    }
  }

  /** One step of `load_products`: slot `i` is read from the next line and
      the later slots from the text after it. */
  lemma ParseLinesStep(s: string, i: nat, line: string, rest: string)
    requires i < NUM_ITEMS && ReadLine(s) == (line, rest)
    ensures ParseLines(s, i).Success? <==>
              line != [] && ParseLine(line, i + 1).Success? && ParseLines(rest, i + 1).Success?
    ensures ParseLines(s, i).Success? ==>
              ParseLines(s, i).value == [ParseLine(line, i + 1).value] + ParseLines(rest, i + 1).value
  {
  }

  /** A slot read from a non-empty, well-formed line is followed by the slots
      read from the text after it. */
  lemma ParseLinesNext(s: string, i: nat, line: string, rest: string, p: Product)
    requires i < NUM_ITEMS && ReadLine(s) == (line, rest) && line != []
    requires ParseLine(line, i + 1) == Success(p)
    ensures ParseLines(s, i) == Prepend([p], ParseLines(rest, i + 1))
  {
  }

  /** Reading stops at the end of the file or at the first line that does
      not parse. */
  lemma ParseLinesStops(s: string, i: nat, line: string, rest: string)
    requires i < NUM_ITEMS && ReadLine(s) == (line, rest)
    ensures line == [] ==> ParseLines(s, i) == Failure(InsufficientData)
    ensures line != [] && ParseLine(line, i + 1).Failure? ==>
              ParseLines(s, i) == Failure(ParseLine(line, i + 1).error)
  {
  }

  lemma ParseLinesDone(s: string)
    ensures ParseLines(s, NUM_ITEMS) == Success([])
  {
  }

  /** A saved line followed by a file whose later slots read back reads back
      with the saved slot in front. */
  lemma SavedLineStep(p: Product, rest: string, i: nat, tail: seq<Product>)
    requires i < NUM_ITEMS && WellFormedName(p.name)
    requires ParseLines(rest, i + 1) == Success(tail)
    ensures ParseLines(FormatLine(p) + rest, i) == Success([p] + tail)
  {
    FormatLineShape(p);
    var t := p.name + [','] + CentsText(p.cents) + [','] + IntText(p.stock);
    ReadLineOf(t, rest);
    LineRoundTrip(p, i + 1);
    ParseLinesStep(FormatLine(p) + rest, i, FormatLine(p), rest);
  }

  /** A saved catalog whose later slots read back reads back whole. */
  lemma CatalogHeadStep(ps: seq<Product>, i: nat, extra: string)
    requires ps != [] && i < NUM_ITEMS && WellFormedName(ps[0].name)
    requires ParseLines(FormatCatalog(ps[1..]) + extra, i + 1) == Success(ps[1..])
    ensures ParseLines(FormatCatalog(ps) + extra, i) == Success(ps)
  {
    FormatCatalogCons(ps, extra);
    SavedLineStep(ps[0], FormatCatalog(ps[1..]) + extra, i, ps[1..]);
    assert [ps[0]] + ps[1..] == ps;
  }

  lemma FormatCatalogCons(ps: seq<Product>, extra: string)
    requires ps != []
    ensures FormatCatalog(ps) + extra == FormatLine(ps[0]) + (FormatCatalog(ps[1..]) + extra)
  {
  }

  lemma {:induction false} ParseLinesRoundTripStep(ps: seq<Product>, i: nat, extra: string)
    requires i < NUM_ITEMS && |ps| == NUM_ITEMS - i && AllNamesWellFormed(ps)
    ensures ParseLines(FormatCatalog(ps) + extra, i) == Success(ps)
    decreases NUM_ITEMS - i, 0
  {
    assert [ps[0]] + ps[1..] == ps;
    NamesWellFormedCons(ps[0], ps[1..]);
    ParseLinesRoundTrip(ps[1..], i + 1, extra);
    CatalogHeadStep(ps, i, extra);
  }

  lemma {:induction false} ParseLinesRoundTrip(ps: seq<Product>, i: nat, extra: string)
    requires i <= NUM_ITEMS && |ps| == NUM_ITEMS - i
    requires AllNamesWellFormed(ps)
    ensures ParseLines(FormatCatalog(ps) + extra, i) == Success(ps)
    decreases NUM_ITEMS - i, 1
  {
    if i < NUM_ITEMS {
      ParseLinesRoundTripStep(ps, i, extra);
    } else {
      ParseLinesDone(FormatCatalog(ps) + extra);
    }
  }

  /** Saving a catalog and loading the file back gives the same names, cents
      and stocks; lines after the last slot do not matter. */
  lemma CatalogRoundTrip(ps: seq<Product>, extra: string)
    requires |ps| == NUM_ITEMS && AllNamesWellFormed(ps)
    ensures ParseCatalog(Some(FormatCatalog(ps) + extra)) == Success(ps)
  {
    ParseLinesRoundTrip(ps, 0, extra);
  }

  /** The first slot read has a well-formed name. */
  lemma LoadedHeadWellFormed(s: string, i: nat)
    requires i < NUM_ITEMS && ParseLines(s, i).Success?
    ensures ParseLines(ReadLine(s).1, i + 1).Success?
    ensures AllNamesWellFormed(ParseLines(ReadLine(s).1, i + 1).value) ==>
              AllNamesWellFormed(ParseLines(s, i).value)
  {
    var r := ReadLine(s);
    ReadLineSplits(s);
    ParseLinesStep(s, i, r.0, r.1);
    LoadedNameWellFormed(r.0, i + 1);
    NamesWellFormedCons(ParseLine(r.0, i + 1).value, ParseLines(r.1, i + 1).value);
  }

  lemma {:induction false} LoadedNamesWellFormedStep(s: string, i: nat)
    requires i < NUM_ITEMS && ParseLines(s, i).Success?
    ensures AllNamesWellFormed(ParseLines(s, i).value)
    decreases NUM_ITEMS - i, 0
  {
    LoadedHeadWellFormed(s, i);
    LoadedNamesWellFormed(ReadLine(s).1, i + 1);
  }

  /** Every name `load_products` accepts can be saved and read back. */
  lemma {:induction false} LoadedNamesWellFormed(s: string, i: nat)
    requires i <= NUM_ITEMS && ParseLines(s, i).Success?
    ensures AllNamesWellFormed(ParseLines(s, i).value)
    decreases NUM_ITEMS - i, 1
  {
    if i < NUM_ITEMS {
      LoadedNamesWellFormedStep(s, i);
    } else {
      ParseLinesDone(s);
    }
  }

  /** A catalog that loaded is written by a save into a file that loads to
      the same catalog. */
  lemma SaveAfterLoad(text: string, ps: seq<Product>)
    requires ParseCatalog(Some(text)) == Success(ps)
    ensures ParseCatalog(Some(FormatCatalog(ps))) == Success(ps)
  {
    LoadedNamesWellFormed(text, 0);
    CatalogRoundTrip(ps, "");
    assert FormatCatalog(ps) + "" == FormatCatalog(ps);
  }
}

=== FILE: order_rules.dfy ===
/** The rules of one customer order: which order lines the session accepts,
    what an accepted line does to the order and the stock, and the receipt
    an order produces. Prices and totals are in whole cents. */
module OrderRules {
  import opened Wrappers
  import opened CatalogFormat

  /** One round of the order prompt: the item number and the quantity as
      Python's `int()` read them (`None` when `int()` raises `ValueError`).
      The quantity is only asked for once the item number is valid; for an
      entry whose item is rejected it is never read. */
  datatype Entry = Entry(item: Option<int>, quantity: Option<int>)

  /** What the session does with one entry; every verdict but `Accepted`
      prints an error and leaves the order and the stock as they were. */
  datatype Verdict =
    | Accepted
    | ItemNotANumber
    | InvalidItem
    | QuantityNotANumber
    | InvalidQuantity
    | InsufficientStock

  /** The checks of one order line, in the order the session makes them:
      the item number, then a quantity of at least one, then the stock. */
  function Check(stock: seq<int>, e: Entry): (v: Verdict)
    requires |stock| == NUM_ITEMS
    ensures v == Accepted <==>
              e.item.Some? && ValidItem(e.item.value) && e.quantity.Some?
              && 1 <= e.quantity.value <= stock[e.item.value - 1]
  {
    match e.item
    case None => ItemNotANumber
    case Some(item) =>
      if item < 1 || item > NUM_ITEMS then InvalidItem
      else
        match e.quantity
        case None => QuantityNotANumber
        case Some(quantity) =>
          if quantity < 1 then InvalidQuantity
          else if quantity > stock[item - 1] then InsufficientStock
          else Accepted
  }

  /** An item number out of range is rejected whatever the quantity and the stock. */
  lemma ItemCheckedFirst(stock: seq<int>, item: int, quantity: Option<int>)
    requires |stock| == NUM_ITEMS && !ValidItem(item)
    ensures Check(stock, Entry(Some(item), quantity)) == InvalidItem
  {
  }

  /** A quantity below one is rejected before the stock is looked at: the
      verdict is the same for every stock. */
  lemma QuantityCheckedBeforeStock(stock: seq<int>, other: seq<int>, item: int, quantity: int)
    requires |stock| == NUM_ITEMS && |other| == NUM_ITEMS && ValidItem(item) && quantity < 1
    ensures Check(stock, Entry(Some(item), Some(quantity))) == InvalidQuantity
    ensures Check(other, Entry(Some(item), Some(quantity))) == InvalidQuantity
  {
  }

  /** The stock bound is inclusive: all of an item's stock can be ordered,
      one more cannot. */
  lemma StockBoundary(stock: seq<int>, item: int)
    requires |stock| == NUM_ITEMS && ValidItem(item) && stock[item - 1] >= 1
    ensures Check(stock, Entry(Some(item), Some(stock[item - 1]))) == Accepted
    ensures Check(stock, Entry(Some(item), Some(stock[item - 1] + 1))) == InsufficientStock
  {
  }

  /** The state of an order in progress: the item numbers `f` and quantities
      `q` of the accepted lines, the running total, and the stock. */
  datatype Session = Session(f: seq<int>, q: seq<int>, total: int, stock: seq<int>)

  /** One entry of the order loop. */
  function Step(prices: seq<int>, s: Session, e: Entry): (r: Session)
    requires |prices| == NUM_ITEMS && |s.stock| == NUM_ITEMS
    ensures |r.stock| == NUM_ITEMS
    ensures Check(s.stock, e) != Accepted ==> r == s
    ensures Check(s.stock, e) == Accepted ==>
              var item, quantity := e.item.value, e.quantity.value;
              r.f == s.f + [item] && r.q == s.q + [quantity]
              && r.total == s.total + prices[item - 1] * quantity
              && r.stock[item - 1] == s.stock[item - 1] - quantity >= 0
              && forall j :: 0 <= j < NUM_ITEMS && j != item - 1 ==> r.stock[j] == s.stock[j]
  {
    if Check(s.stock, e) == Accepted then
      var item, quantity := e.item.value, e.quantity.value;
      Session(s.f + [item], s.q + [quantity], s.total + prices[item - 1] * quantity,
              s.stock[item - 1 := s.stock[item - 1] - quantity])
    else s
  }

  /** The order loop over the entries made before the customer pressed Enter
      on an empty item prompt, starting from an empty order and the stock
      `stock`. */
  function Run(prices: seq<int>, stock: seq<int>, entries: seq<Entry>): (s: Session)
    requires |prices| == NUM_ITEMS && |stock| == NUM_ITEMS
    ensures |s.stock| == NUM_ITEMS && |s.f| == |s.q| <= |entries|
  {
    if entries == [] then Session([], [], 0, stock)
    else Step(prices, Run(prices, stock, entries[..|entries| - 1]), entries[|entries| - 1])
  }

  /** Accepted order lines: as many items as quantities, every item number
      valid and every quantity at least one. */
  predicate OrderLines(f: seq<int>, q: seq<int>) {
    |f| == |q| && forall k :: 0 <= k < |f| ==> ValidItem(f[k]) && q[k] >= 1
  }

  /** The sum of `prices[f[k]-1] * q[k]` over the lines of an order. */
  function LineSum(prices: seq<int>, f: seq<int>, q: seq<int>): int
    requires |prices| == NUM_ITEMS && OrderLines(f, q)
  {
    if f == [] then 0
    else
      var n := |f| - 1;
      LineSum(prices, f[..n], q[..n]) + prices[f[n] - 1] * q[n]
  }

  /** How much of the item numbered `item` the lines of an order take. */
  function Ordered(f: seq<int>, q: seq<int>, item: int): int
    requires |f| == |q|
  {
    if f == [] then 0
    else
      var n := |f| - 1;
      Ordered(f[..n], q[..n], item) + (if f[n] == item then q[n] else 0)
  }

  /** Whatever the entries, the session keeps one quantity per item number,
      accepts only valid items and positive quantities, and its total is the
      sum of price times quantity over the accepted lines. */
  lemma {:induction false} RunTotal(prices: seq<int>, stock: seq<int>, entries: seq<Entry>)
    requires |prices| == NUM_ITEMS && |stock| == NUM_ITEMS
    ensures var s := Run(prices, stock, entries);
            OrderLines(s.f, s.q) && s.total == LineSum(prices, s.f, s.q)
  {
    if entries != [] {
      var n := |entries| - 1;
      RunTotal(prices, stock, entries[..n]);
      var before := Run(prices, stock, entries[..n]);
      var s := Run(prices, stock, entries);
      if Check(before.stock, entries[n]) == Accepted {
        assert s.f[..|s.f| - 1] == before.f && s.q[..|s.q| - 1] == before.q;
      }
    }
  }

  /** Stock is conserved with respect to the opening stock `opening`: each
      slot holds its opening stock less what the lines of `s` took from it;
      no slot has grown, and a slot that opened non-negative is still
      non-negative. */
  predicate Conserves(opening: seq<int>, s: Session)
    requires |opening| == NUM_ITEMS && |s.stock| == NUM_ITEMS
  {
    |s.f| == |s.q|
    && forall j :: 0 <= j < NUM_ITEMS ==>
         s.stock[j] == opening[j] - Ordered(s.f, s.q, j + 1) && s.stock[j] <= opening[j]
         && (opening[j] >= 0 ==> s.stock[j] >= 0)
  }

  /** One entry keeps the stock conserved. */
  lemma StepConserves(prices: seq<int>, opening: seq<int>, s: Session, e: Entry)
    requires |prices| == NUM_ITEMS && |opening| == NUM_ITEMS && |s.stock| == NUM_ITEMS
    requires Conserves(opening, s)
    ensures Conserves(opening, Step(prices, s, e))
  {
    var r := Step(prices, s, e);
    if Check(s.stock, e) == Accepted {
      assert r.f[..|r.f| - 1] == s.f && r.q[..|r.q| - 1] == s.q;
    }
  }

  /** Whatever the entries, the session conserves the stock it opened with. */
  lemma {:induction false} RunStock(prices: seq<int>, stock: seq<int>, entries: seq<Entry>)
    requires |prices| == NUM_ITEMS && |stock| == NUM_ITEMS
    ensures Conserves(stock, Run(prices, stock, entries))
  {
    if entries != [] {
      var n := |entries| - 1;
      RunStock(prices, stock, entries[..n]);
      StepConserves(prices, stock, Run(prices, stock, entries[..n]), entries[n]);
    }
  }

  /** An order in which no line was accepted leaves the stock as it was and
      totals nothing, so there is nothing to print, log or save. */
  lemma EmptyOrder(prices: seq<int>, stock: seq<int>, entries: seq<Entry>)
    requires |prices| == NUM_ITEMS && |stock| == NUM_ITEMS
    requires Run(prices, stock, entries).f == []
    ensures Run(prices, stock, entries) == Session([], [], 0, stock)
  {
    RunTotal(prices, stock, entries);
    RunStock(prices, stock, entries);
    var s := Run(prices, stock, entries);
    assert s.stock == stock;
  }

  /** The session accepts an entry exactly when the order grows by one line. */
  lemma RunGrows(prices: seq<int>, stock: seq<int>, entries: seq<Entry>, e: Entry)
    requires |prices| == NUM_ITEMS && |stock| == NUM_ITEMS
    ensures var before := Run(prices, stock, entries);
            var after := Run(prices, stock, entries + [e]);
            (Check(before.stock, e) == Accepted <==> |after.f| == |before.f| + 1)
            && (Check(before.stock, e) != Accepted <==> after == before)
  {
    assert (entries + [e])[..|entries|] == entries;
  }

  /** One row of the bill (`bill.txt`, the transaction log and the PDF):
      the item's name, the quantity, the unit price and the line total. */
  datatype ReceiptRow = ReceiptRow(name: string, quantity: int, unitCents: int, lineCents: int)

  /** The rows printed for the accepted lines, in the order they were accepted. */
  function Receipt(names: seq<string>, prices: seq<int>, f: seq<int>, q: seq<int>): (rows: seq<ReceiptRow>)
    requires |names| == NUM_ITEMS && |prices| == NUM_ITEMS && OrderLines(f, q)
    ensures |rows| == |f|
  {
    if f == [] then []
    else
      var n := |f| - 1;
      Receipt(names, prices, f[..n], q[..n])
        + [ReceiptRow(names[f[n] - 1], q[n], prices[f[n] - 1], prices[f[n] - 1] * q[n])]
  }

  /** The sum of the line totals printed on a bill. */
  function RowsTotal(rows: seq<ReceiptRow>): int
  {
    if rows == [] then 0 else RowsTotal(rows[..|rows| - 1]) + rows[|rows| - 1].lineCents
  }

  /** Row `k` of the bill names the item of accepted line `k`, its quantity
      and its price, and its line total is price times quantity. */
  lemma {:induction false} ReceiptRows(names: seq<string>, prices: seq<int>, f: seq<int>, q: seq<int>)
    requires |names| == NUM_ITEMS && |prices| == NUM_ITEMS && OrderLines(f, q)
    ensures var rows := Receipt(names, prices, f, q);
            forall k :: 0 <= k < |f| ==>
              rows[k].name == names[f[k] - 1] && rows[k].quantity == q[k]
              && rows[k].unitCents == prices[f[k] - 1]
              && rows[k].lineCents == rows[k].unitCents * rows[k].quantity
  {
    if f != [] {
      var n := |f| - 1;
      ReceiptRows(names, prices, f[..n], q[..n]);
    }
  }

  /** The line totals on the bill add up to the order's line sum. */
  lemma {:induction false} ReceiptTotal(names: seq<string>, prices: seq<int>, f: seq<int>, q: seq<int>)
    requires |names| == NUM_ITEMS && |prices| == NUM_ITEMS && OrderLines(f, q)
    ensures RowsTotal(Receipt(names, prices, f, q)) == LineSum(prices, f, q)
  {
    if f != [] {
      var n := |f| - 1;
      ReceiptTotal(names, prices, f[..n], q[..n]);
      var rows := Receipt(names, prices, f, q);
      assert rows[..|rows| - 1] == Receipt(names, prices, f[..n], q[..n]);
    }
  }

  /** The TOTAL line of a bill equals the sum of its rows. */
  lemma BillBalances(names: seq<string>, prices: seq<int>, stock: seq<int>, entries: seq<Entry>)
    requires |names| == NUM_ITEMS && |prices| == NUM_ITEMS && |stock| == NUM_ITEMS
    ensures var s := Run(prices, stock, entries);
            OrderLines(s.f, s.q) && s.total == RowsTotal(Receipt(names, prices, s.f, s.q))
  {
    var s := Run(prices, stock, entries);
    RunTotal(prices, stock, entries);
    ReceiptTotal(names, prices, s.f, s.q);
  }

  /** Ordering ten of item 1 from the sample stock leaves ninety, and the
      order totals ten times the item's price. */
  lemma SingleLineOrder(prices: seq<int>)
    requires |prices| == NUM_ITEMS
    ensures Run(prices, [100, 150, 80, 50, 60], [Entry(Some(1), Some(10))])
            == Session([1], [10], prices[0] * 10, [90, 150, 80, 50, 60])
  {
    assert [Entry(Some(1), Some(10))][..0] == [];
  }

  /** The opening stock of the shop's sample data, checked against the
      boundary cases the project's tests name. */
  lemma SampleStockBoundaries()
    ensures var stock := [100, 150, 80, 50, 60];
            Check(stock, Entry(Some(1), Some(50))) == Accepted
            && Check(stock, Entry(Some(2), Some(150))) == Accepted
            && Check(stock, Entry(Some(3), Some(80))) == Accepted
            && Check(stock, Entry(Some(4), Some(51))) == InsufficientStock
            && Check(stock, Entry(Some(5), Some(60))) == Accepted
            && Check(stock, Entry(Some(5), Some(61))) == InsufficientStock
            && Check(stock, Entry(Some(0), Some(1))) == InvalidItem
            && Check(stock, Entry(Some(6), Some(1))) == InvalidItem
            && Check(stock, Entry(Some(-1), Some(1))) == InvalidItem
  {
  }
}

=== FILE: smartbuy.dfy ===
/** The shop's in-memory catalog and the operations of the program that
    change it: loading and saving the catalog file, taking an order, and
    the admin panel's product edit. */
module SmartBuy {
  import opened Wrappers
  import opened CatalogFormat
  import opened OrderRules
  import opened AdminRules

  /** The slots of a catalog held as three parallel sequences. */
  function Zip(names: seq<string>, prices: seq<int>, stock: seq<int>): (ps: seq<Product>)
    requires |names| == |prices| == |stock|
    ensures |ps| == |names|
  {
    seq(|names|, k requires 0 <= k < |names| => Product(names[k], prices[k], stock[k]))
  }

  /** One more slot at the end of three parallel sequences is one more
      product at the end of the catalog. */
  lemma ZipSnoc(names: seq<string>, prices: seq<int>, stock: seq<int>, name: string, price: int, count: int)
    requires |names| == |prices| == |stock|
    ensures Zip(names + [name], prices + [price], stock + [count])
            == Zip(names, prices, stock) + [Product(name, price, count)]
  {
  }

  /** How an order ends: with no accepted line nothing is printed, logged
      or saved; otherwise the bill rows and total are written and the
      catalog is saved as `saved`. */
  datatype OrderOutcome =
    | NothingOrdered
    | Billed(rows: seq<ReceiptRow>, total: int, saved: string)

  /** The three global lists of the program, `food_names`, `prices` (here in
      cents) and `in_stock`, each with one slot per product. */
  class Catalog {
    const names: array<string>
    const prices: array<int>
    const stock: array<int>

    ghost predicate Valid()
      reads this
    {
      names.Length == NUM_ITEMS && prices.Length == NUM_ITEMS && stock.Length == NUM_ITEMS
      && prices != stock
    }

    /** The catalog's slots, in product-number order. */
    ghost function Records(): (ps: seq<Product>)
      requires Valid()
      reads this, names, prices, stock
      ensures |ps| == NUM_ITEMS
    {
      Zip(names[..], prices[..], stock[..])
    }

    /** The start-up state: empty names, zero prices and zero stock. */
    constructor()
      ensures Valid() && fresh(names) && fresh(prices) && fresh(stock)
      ensures Records() == seq(NUM_ITEMS, _ => Product("", 0, 0))
    {
      names := new string[NUM_ITEMS](_ => "");
      prices := new int[NUM_ITEMS](_ => 0);
      stock := new int[NUM_ITEMS](_ => 0);
    }

    /** `load_products`: reads one line per slot and fills the slot from it.
        `file` is the file's text, `None` when it does not exist. On an error
        the program exits, so the slots are then left unspecified. */
    method Load(file: Option<string>) returns (error: Option<LoadError>)
      requires Valid()
      modifies names, prices, stock
      ensures Valid()
      ensures ParseCatalog(file).Success? ==> error == None && Records() == ParseCatalog(file).value
      ensures ParseCatalog(file).Failure? ==> error == Some(ParseCatalog(file).error)
    {
      if file.None? {
        return Some(CouldNotOpen);
      }
      ghost var text := file.value;
      ghost var loaded: seq<Product> := [];
      var rest := file.value;
      PrependNothing(ParseLines(text, 0));
      for i := 0 to NUM_ITEMS
        invariant loaded == Zip(names[..i], prices[..i], stock[..i])
        invariant ParseLines(text, 0) == Prepend(loaded, ParseLines(rest, i))
      {
        var (line, next) := ReadLine(rest);
        ParseLinesStops(rest, i, line, next);
        if line == [] {
          return Some(InsufficientData);
        }
        var parsed := ParseLine(line, i + 1);
        if parsed.Failure? {
          return Some(parsed.error);
        }
        var p := parsed.value;
        ParseLinesNext(rest, i, line, next, p);
        PrependTwice(loaded, [p], ParseLines(next, i + 1));
        ghost var before := (names[..i], prices[..i], stock[..i]);
        ZipSnoc(before.0, before.1, before.2, p.name, p.cents, p.stock);
        names[i] := p.name;
        prices[i] := p.cents;
        stock[i] := p.stock;
        assert names[..i + 1] == before.0 + [p.name] && prices[..i + 1] == before.1 + [p.cents]
          && stock[..i + 1] == before.2 + [p.stock];
        loaded := loaded + [p];
        rest := next;
      }
      assert names[..NUM_ITEMS] == names[..] && prices[..NUM_ITEMS] == prices[..]
        && stock[..NUM_ITEMS] == stock[..];
      return None;
    }

    /** `save_products`: the text written to the catalog file, one
        `name,price,stock` line per slot. Saving a catalog whose names hold
        no comma or newline and start with no whitespace gives a file that
        loads back to the same slots. */
    method Save() returns (text: string)
      requires Valid()
      ensures text == FormatCatalog(Records())
      ensures AllNamesWellFormed(Records()) ==> ParseCatalog(Some(text)) == Success(Records())
    {
      text := "";
      for i := 0 to NUM_ITEMS
        invariant text == FormatCatalog(Zip(names[..i], prices[..i], stock[..i]))
      {
        var p := Product(names[i], prices[i], stock[i]);
        FormatCatalogAppend(Zip(names[..i], prices[..i], stock[..i]), p);
        assert Zip(names[..i + 1], prices[..i + 1], stock[..i + 1])
            == Zip(names[..i], prices[..i], stock[..i]) + [p];
        text := text + FormatLine(p);
      }
      assert names[..NUM_ITEMS] == names[..] && prices[..NUM_ITEMS] == prices[..]
        && stock[..NUM_ITEMS] == stock[..];
      if AllNamesWellFormed(Records()) {
        CatalogRoundTrip(Records(), "");
        assert text + "" == text;
      }
    }

    /** The order loop of the main menu: each entry is checked for a valid
        item number, a quantity of at least one and enough stock; an
        accepted line is appended to `f` and `q`, adds its price times
        quantity to `total` and takes its quantity out of stock. */
    method TakeOrder(entries: seq<Entry>) returns (f: seq<int>, q: seq<int>, total: int)
      requires Valid()
      modifies stock
      ensures Session(f, q, total, stock[..]) == Run(prices[..], old(stock[..]), entries)
      ensures OrderLines(f, q) && total == LineSum(prices[..], f, q)
      ensures forall j :: 0 <= j < NUM_ITEMS ==>
                stock[j] == old(stock[j]) - Ordered(f, q, j + 1) && stock[j] <= old(stock[j])
    {
      f, q, total := [], [], 0;
      var i := 0;
      while i < |entries|
        invariant 0 <= i <= |entries|
        invariant Session(f, q, total, stock[..]) == Run(prices[..], old(stock[..]), entries[..i])
      {
        var e := entries[i];
        i := i + 1;
        assert entries[..i][..i - 1] == entries[..i - 1];
        if e.item.None? {
          continue;
        }
        var item := e.item.value;
        if item < 1 || item > NUM_ITEMS {
          continue;
        }
        if e.quantity.None? {
          continue;
        }
        var quantity := e.quantity.value;
        if quantity < 1 {
          continue;
        }
        if quantity > stock[item - 1] {
          continue;
        }
        f := f + [item];
        q := q + [quantity];
        total := total + prices[item - 1] * quantity;
        stock[item - 1] := stock[item - 1] - quantity;
      }
      assert entries[..i] == entries;
      RunTotal(prices[..], old(stock[..]), entries);
      RunStock(prices[..], old(stock[..]), entries);
    }

    /** Menu choice 1: take an order, then, if any line was accepted, write
        the bill and save the catalog; an empty order changes nothing. */
    method PlaceOrder(entries: seq<Entry>) returns (outcome: OrderOutcome)
      requires Valid()
      modifies stock
      ensures var s := Run(prices[..], old(stock[..]), entries);
              stock[..] == s.stock && OrderLines(s.f, s.q)
              && (s.f == [] <==> outcome == NothingOrdered)
              && (s.f == [] ==> stock[..] == old(stock[..]))
              && (s.f != [] ==> outcome == Billed(Receipt(names[..], prices[..], s.f, s.q), s.total,
                                                  FormatCatalog(Records())))
      ensures outcome.Billed? ==> outcome.total == RowsTotal(outcome.rows)
    {
      var f, q, total := TakeOrder(entries);
      if f == [] {
        EmptyOrder(prices[..], old(stock[..]), entries);
        return NothingOrdered;
      }
      var rows := Receipt(names[..], prices[..], f, q);
      ReceiptTotal(names[..], prices[..], f, q);
      var text := Save();
      outcome := Billed(rows, total, text);
    }

    /** `edit_product`: checks the product number, the new price and the new
        stock in that order, returning at the first failure; otherwise sets
        the chosen slot's price and stock. */
    method EditProduct(choice: Option<int>, newPrice: Option<int>, newStock: Option<int>)
      returns (outcome: EditOutcome)
      requires Valid()
      modifies prices, stock
      ensures Valid()
      ensures outcome == EditVerdict(choice, newPrice, newStock)
      ensures Records() == ApplyEdit(old(Records()), choice, newPrice, newStock)
    {
      if choice.None? {
        return InvalidInput;
      }
      var item := choice.value;
      if item < 1 || item > NUM_ITEMS {
        return InvalidItemNumber;
      }
      if newPrice.None? || newPrice.value < 0 {
        return InvalidPrice;
      }
      if newStock.None? || newStock.value < 0 {
        return InvalidStock;
      }
      prices[item - 1] := newPrice.value;
      stock[item - 1] := newStock.value;
      assert Records() == old(Records())[item - 1 := Product(names[item - 1], newPrice.value, newStock.value)];
      return Updated;
    }

    /** Admin panel choice 2: edit a product, then save the catalog, which
        happens whether or not the edit was accepted. */
    method AdminEdit(choice: Option<int>, newPrice: Option<int>, newStock: Option<int>)
      returns (outcome: EditOutcome, saved: string)
      requires Valid()
      modifies prices, stock
      ensures Valid()
      ensures outcome == EditVerdict(choice, newPrice, newStock)
      ensures Records() == ApplyEdit(old(Records()), choice, newPrice, newStock)
      ensures saved == FormatCatalog(Records())
    {
      outcome := EditProduct(choice, newPrice, newStock);
      saved := Save();
    }
  }
}

=== FILE: wrappers.dfy ===
/** Failure-carrying values shared by the other modules. */
module Wrappers {

  /** A value that may be absent; `None` stands for console text that
      Python's `int()` or `float()` rejects with a `ValueError`. */
  datatype Option<+T> = None | Some(value: T)

  /** The outcome of an operation that can fail with an error `E`. */
  datatype Result<+T, +E> = Success(value: T) | Failure(error: E)
}
